=== FILE: README.md ===
# AwsS3Provider: differential sync to S3, modelled in Dafny

This project models the decision logic of the Laravel CDN package's Amazon S3 provider
(`src/Providers/AwsS3Provider.php`). The provider uploads a set of local assets to an S3
bucket, uploading only assets that are new or whose size changed. It can also empty a bucket
and build the public URL of an asset, either directly on the bucket or through CloudFront.

The S3 client is not modelled. Its calls appear only through their outcomes, which the model
takes as inputs:

- `connected: bool` is the result of `connect`.
- `Listing` is one `listObjects` page, or a failed listing.
- `accepted: seq<bool>` gives the result of each `putObject` in order.
- `DeleteOutcome` is the result of the batch delete.

The CDN helper's `parseUrl` is a function parameter with no interpretation.

Modules, one per concern of the provider:

- `Strings` (`strings.dfy`): `str_replace('\\', '/', …)` on paths, and `rtrim(…, '/') . '/'` on base URLs.
- `PhpArrays` (`php_arrays.dfy`): PHP values with ordered arrays, nested reads, and `array_replace_recursive`.
- `Config` (`config.dfy`): the defaults, `init`, and `__get`.
- `ChangeDetection` (`change_detection.dfy`): `getFilesAlreadyOnBucket`, the listing index, and the size-only decision table.
- `Upload` (`upload.dfy`): `upload`, its fail-fast put loop, and what a second run plans.
- `Purge` (`purge.dfy`): `emptyBucket`.
- `Urls` (`urls.dfy`): `getBucket`, `getCloudFront`, `getCloudFrontUrl`, `getUrl`, and `urlGenerator`.
- `Outcomes` (`outcomes.dfy`): `Option`, plus `Exit`, which says whether a PHP method returned a boolean or let an exception escape.

## Behaviour as written

The model follows the code, including these points where it may not do what a reader expects:

- The lookup key and the put key differ. The lookup key used when comparing with the listing is the normalised path alone (line 279). The put key has the upload folder in front (line 189). With a non-empty upload folder, the comparison does not find an uploaded file under its own key. Starting from a bucket with no object under any asset's lookup key, every run therefore uploads the assets again (`Upload.UploadFolderDefeatsComparison`), as long as no asset's put key is another asset's lookup key. An object of the asset's size that already sits under the lookup key masks the asset instead: it is never planned, so it is never stored under the upload folder at all (`Upload.FolderMaskedBySameSizeObject`). When one is (folder `a/` with assets `a/b` and `b`), the object stored for `b` under `a/b` is taken for `a/b`'s, and `a/b` is skipped when the sizes agree. With an empty folder, a second run plans nothing (`Upload.ReuploadFindsNothing`), as long as lookup keys are distinct and the bucket fits in one listing page.
- Only one page of the listing is read (line 260), and S3 returns at most 1000 objects per page. There is no pagination. An asset whose object lies past the first page is uploaded again on every run (`Upload.TruncatedListingReplans`).
- Only existence and size are compared. `LastModified` serves only as an existence marker, and an asset whose contents changed but whose size did not is skipped.
- A failed listing inside `upload` is outside the `try`, so the exception escapes `upload` instead of it returning false. In `emptyBucket`, the listing is inside the `try`, so an `S3Exception` there returns false.
- A partial batch delete raises `DeleteMultipleObjectsException`. That is not an `S3Exception`, so it escapes `emptyBucket`.
- The `bucket.` host prefix is added whenever the bucket is not empty in PHP's sense, even when the host already starts with it. There is no de-duplication (`Urls.BucketLabelNotDeduplicated`). A bucket named `0` counts as empty and gets no prefix (`Urls.BucketZeroGetsNoLabel`).
- CloudFront mode applies only when `cloudfront.use` is the boolean `true`.

## Model

| member | source | states |
|---|---|---|
| `Strings.Normalise` | src/Providers/AwsS3Provider.php:279 | every backslash of the path becomes `/`; every other character and the length are unchanged |
| `Strings.NormaliseIdempotent` | src/Providers/AwsS3Provider.php:189 | a normalised path has no backslash, and normalising it again changes nothing |
| `Strings.NormaliseKeepsSlashPaths` | src/Providers/AwsS3Provider.php:279 | a path name that already uses forward slashes only is its own lookup key |
| `Strings.TrimTrailingSlashes` | src/Providers/AwsS3Provider.php:312 | `rtrim(s, '/')` is a prefix of `s` that does not end in `/` and is followed only by slashes |
| `Strings.TrimTrailingSlashesUnique` | src/Providers/AwsS3Provider.php:415 | those three facts determine the trimmed string uniquely |
| `Strings.WithOneSlash` | src/Providers/AwsS3Provider.php:413-416 | the base URL ends in exactly one `/`, and everything before it is the configured URL without its trailing slashes |
| `Strings.WithOneSlashIdempotent` | src/Providers/AwsS3Provider.php:413-416 | applying the one-slash ending twice is the same as once |
| `Strings.WithOneSlashIgnoresExtraSlashes` | src/Providers/AwsS3Provider.php:405-408 | extra trailing slashes on a configured URL do not change the result |
| `Strings.EmptyInPhp` | src/Providers/AwsS3Provider.php:385 | PHP's `empty()` on a string: true exactly for `""` and `"0"` (a predicate with no separate contract; `Urls.BucketZeroGetsNoLabel` states its effect) |
| `Strings.Digits` | src/Providers/AwsS3Provider.php:189 | the decimal digits of a natural number, as PHP writes an integer when concatenating: at least one digit, only digits, and a single digit exactly below ten |
| `Strings.Decimal` | src/Providers/AwsS3Provider.php:189 | PHP's string form of an integer: it starts with `-` exactly when the integer is negative |
| `Strings.DigitsValue` | src/Providers/AwsS3Provider.php:189 | reading the digits back gives the number |
| `Strings.DecimalValue` | src/Providers/AwsS3Provider.php:189 | a non-negative integer's string reads back as the integer; a negative one's is `-` followed by the digits of its magnitude |
| `PhpArrays.Set` | src/Providers/AwsS3Provider.php:132 | writing a key overwrites it in place or appends it at the end; other keys read as before; unique keys stay unique |
| `PhpArrays.EntryOf` | src/Providers/AwsS3Provider.php:135-145 | `$items[$k]`: `null` unless some entry has key `k`, and, when keys are unique, the value of the entry with that key |
| `PhpArrays.Entry` | src/Providers/AwsS3Provider.php:425 | reading a key of a value gives something other than `null` only when the value is an array with an entry under that key |
| `PhpArrays.LookupConcat` | src/Providers/AwsS3Provider.php:135-145 | the nested reads `$default['providers']['aws']['s3'][...]`: following a path in two parts reaches the same value as following it at once |
| `PhpArrays.LookupThroughScalar` | src/Providers/AwsS3Provider.php:135-145 | a nested read that passes through anything but an array yields `null` |
| `PhpArrays.StringOf` | src/Providers/AwsS3Provider.php:189 | PHP's string conversion for `.` and for `rtrim` (lines 407 and 415): a string is kept, `null` and `false` give the empty string; the integer case is stated by `Strings.DecimalValue` |
| `PhpArrays.ReplaceRecursive` | src/Providers/AwsS3Provider.php:132 | `array_replace_recursive`: two arrays are merged key by key, any other replacement is taken whole; its meaning is stated by `ReplaceItemsEntry`, `ReplaceItemsKeepsBaseOrder` and `ReplacementWins` |
| `PhpArrays.ReplaceItems` | src/Providers/AwsS3Provider.php:132 | the replacement's entries written into the base one at a time, in order; its per-key result and key order are stated by `ReplaceItemsEntry` and `ReplaceItemsKeepsBaseOrder` |
| `PhpArrays.ReplaceItemsEntry` | src/Providers/AwsS3Provider.php:132 | after `array_replace_recursive`, a key of the replacement holds the merge of both entries, and any other key keeps its base value |
| `PhpArrays.ReplaceItemsKeepsBaseOrder` | src/Providers/AwsS3Provider.php:132 | the merged keys are exactly the base keys in place, followed by the replacement's keys the base lacks, in the replacement's order, each once |
| `PhpArrays.ReplacementWins` | src/Providers/AwsS3Provider.php:130-132 | a value the user sets at a nested path is what the merged configuration holds there, unless both it and the base value there are arrays |
| `PhpArrays.BaseKeptWhereUntouched` | src/Providers/AwsS3Provider.php:130-132 | where the user's configuration leaves a path out, the merged configuration keeps the default |
| `Config.Init` | src/Providers/AwsS3Provider.php:128-154 | the supplier has exactly the eleven attributes in order, each read from its path in the merged configuration |
| `Config.Get` | src/Providers/AwsS3Provider.php:423-426 | `__get` returns the attribute's value, or `null` when the supplier has no such attribute |
| `Config.GetAfterInit` | src/Providers/AwsS3Provider.php:423-426 | after `init`, `__get` reads each attribute at its configuration path, and returns `null` for any other name (`key`, `secret`, …) |
| `Config.DefaultsHaveEveryField` | src/Providers/AwsS3Provider.php:44-64 | every supplier attribute has a default, and no default is an array |
| `Config.InitTakesUserSetting` | src/Providers/AwsS3Provider.php:132-146 | a setting the user gives, array-valued ones such as `buckets` and `http` included, is what the supplier holds |
| `Config.InitFillsDefault` | src/Providers/AwsS3Provider.php:44-64 | a setting the user leaves out gets its default |
| `Config.DefaultAcl` | src/Providers/AwsS3Provider.php:56 | without an ACL setting, objects are put `public-read` |
| `Config.DefaultCloudFrontOff` | src/Providers/AwsS3Provider.php:57-60 | without `cloudfront.use`, CloudFront is off |
| `Config.DefaultUploadFolder` | src/Providers/AwsS3Provider.php:54 | without an upload folder setting, the supplier's upload folder is the empty string |
| `Config.EmptyConfigurationDefaults` | src/Providers/AwsS3Provider.php:44-64 | with an empty user configuration every supplier attribute reads as its default |
| `ChangeDetection.IndexListing` | src/Providers/AwsS3Provider.php:269-276 | every listed key is in the index, and each entry is stored under its own key |
| `ChangeDetection.IndexListingLastWins` | src/Providers/AwsS3Provider.php:275 | a key listed more than once maps to its last occurrence |
| `ChangeDetection.IndexListingFromListing` | src/Providers/AwsS3Provider.php:269-276 | every indexed object comes from the listing |
| `ChangeDetection.IndexListingAppend` | src/Providers/AwsS3Provider.php:269-276 | indexing a listing in two parts is the union of the two indexes, with the later part winning |
| `ChangeDetection.FirstPage` | src/Providers/AwsS3Provider.php:260 | the single `listObjects` page: the whole bucket when it holds at most 1000 objects, otherwise its first 1000, always a prefix of the bucket's listing |
| `ChangeDetection.LookupKey` | src/Providers/AwsS3Provider.php:279 | the key an asset is compared under: its path name with backslashes turned into slashes, without the upload folder (the conversion's contract is `Strings.Normalise`'s) |
| `ChangeDetection.Classify` | src/Providers/AwsS3Provider.php:278-288 | the transform keeps an asset exactly when its key is missing from the listing or is listed with another size |
| `ChangeDetection.Classified` | src/Providers/AwsS3Provider.php:278 | the transform over the whole collection: one entry per asset, in order, holding the asset itself exactly when it needs uploading and `null` elsewhere |
| `ChangeDetection.Reject` | src/Providers/AwsS3Provider.php:290-292 | `reject` of the `null` entries, in order; never longer than its input |
| `ChangeDetection.RejectCount` | src/Providers/AwsS3Provider.php:290-292 | `reject` keeps every non-`null` value exactly as often as it occurs and drops only the `null`s |
| `ChangeDetection.FilesAlreadyOnBucket` | src/Providers/AwsS3Provider.php:256-295 | an empty listing keeps every asset; otherwise the plan is an order-preserving subsequence keeping exactly the selected assets, each as often as it occurs |
| `ChangeDetection.SelectionIsSubsequence` | src/Providers/AwsS3Provider.php:290-294 | transform-then-reject keeps the assets' order |
| `ChangeDetection.SelectionCount` | src/Providers/AwsS3Provider.php:278-292 | transform-then-reject keeps each selected asset as often as it occurs, and drops every other asset |
| `ChangeDetection.AllSelectedKeepsAll` | src/Providers/AwsS3Provider.php:278-294 | when every asset is selected, the plan is the whole input in order |
| `ChangeDetection.TimestampsIgnored` | src/Providers/AwsS3Provider.php:270-285 | listings that differ only in modification times give the same plan |
| `ChangeDetection.SameSizeIsSkipped` | src/Providers/AwsS3Provider.php:284-287 | an asset listed under its key with its own size is skipped, whatever its contents |
| `Upload.PutEach` | src/Providers/AwsS3Provider.php:180-205 | puts go in order and stop at the first rejected one; success means every put went through and all were attempted |
| `Upload.Upload` | src/Providers/AwsS3Provider.php:163-216 | a failed connection returns false with no listing and no puts; a failed listing escapes; otherwise the planned put keys are attempted in order, fail-fast, and true means all succeeded (an empty plan puts nothing) |
| `Upload.PutKey` | src/Providers/AwsS3Provider.php:189 | the key an asset is stored under: the upload folder followed by the lookup key (stated through `Upload.UploadFolderDefeatsComparison` and `Upload.UploadFolderExample`) |
| `Upload.PutKeys` | src/Providers/AwsS3Provider.php:189 | one put key per planned asset, in plan order |
| `Upload.PutKeysSplit` | src/Providers/AwsS3Provider.php:189 | the i-th put key splits back into the upload folder and the i-th planned asset's lookup key |
| `Upload.UploadFolderFromConfiguration` | src/Providers/AwsS3Provider.php:189 | `$this->supplier['upload_folder']` is the user's upload folder string when one is set; without one it is empty and each put key is the lookup key |
| `Upload.UploadFailFast` | src/Providers/AwsS3Provider.php:180-205 | when the k-th put is the first one rejected, exactly puts 1..k were attempted, and the result is false |
| `Upload.UpToDateAfterUpload` | src/Providers/AwsS3Provider.php:189 | with no upload folder and distinct lookup keys, each asset matches the complete listing of the bucket after a complete upload |
| `Upload.ReuploadFindsNothing` | src/Providers/AwsS3Provider.php:279 | with no upload folder and distinct lookup keys, a run after a complete upload plans nothing, provided the bucket with every asset added fits in one 1000-object listing page |
| `Upload.TruncatedListingReplans` | src/Providers/AwsS3Provider.php:260 | an asset whose matching object lies past the first listing page is planned again, although the complete listing would skip it |
| `Upload.UploadFolderDefeatsComparison` | src/Providers/AwsS3Provider.php:279 | with an upload folder, provided no asset's put key equals any asset's lookup key, a run after a complete upload into an empty bucket plans every asset again |
| `Upload.FolderMaskedBySameSizeObject` | src/Providers/AwsS3Provider.php:279-287 | an object of the asset's size already under its lookup key keeps the asset out of the plan, the bucket unchanged, and, with a non-empty upload folder, no object under the asset's put key |
| `Upload.UploadFolderExample` | src/Providers/AwsS3Provider.php:189 | `css/app.css` stored under `cdn/css/app.css` is planned again on the next run |
| `Purge.EmptyBucket` | src/Providers/AwsS3Provider.php:321-364 | a failed connection or listing returns false; an empty listing returns true with no delete; otherwise exactly one batch delete runs; true means the delete succeeded; a partial delete escapes |
| `Purge.PartialDeleteNeverSucceeds` | src/Providers/AwsS3Provider.php:350-359 | a partial delete is never reported as success |
| `Urls.GetBucket` | src/Providers/AwsS3Provider.php:302-313 | the bucket is the first key of `buckets` with trailing slashes removed, or empty when there is none |
| `Urls.GetCloudFront` | src/Providers/AwsS3Provider.php:393-400 | CloudFront is on exactly when the setting is the boolean `true` |
| `Urls.GetCloudFrontUrl` | src/Providers/AwsS3Provider.php:405-408 | the CloudFront base ends in exactly one `/` after the configured URL's trailing slashes are removed |
| `Urls.GetUrl` | src/Providers/AwsS3Provider.php:413-416 | the provider base ends in exactly one `/` after the configured URL's trailing slashes are removed |
| `Urls.UrlGenerator` | src/Providers/AwsS3Provider.php:374-388 | CloudFront mode gives `scheme://host/path`; direct mode gives `scheme://` + (`bucket.` unless the bucket is `""` or `"0"`, which PHP's `empty` treats as empty) + `host/path` |
| `Urls.CloudFrontIgnoresBucket` | src/Providers/AwsS3Provider.php:376-380 | in CloudFront mode, the bucket and provider URL do not affect the result |
| `Urls.BaseUrlsIdempotent` | src/Providers/AwsS3Provider.php:405-416 | applying the one-slash ending to `getUrl`/`getCloudFrontUrl` again changes nothing |
| `Urls.ProviderUrlTrailingSlashes` | src/Providers/AwsS3Provider.php:382-387 | extra trailing slashes on the provider URL do not change generated URLs |
| `Urls.BucketLabelNotDeduplicated` | src/Providers/AwsS3Provider.php:384-387 | for a bucket PHP does not count as empty, a host that already starts with `bucket.` gets the bucket name twice |
| `Urls.BucketZeroGetsNoLabel` | src/Providers/AwsS3Provider.php:385 | a bucket named `0` gives the same URL as no bucket at all |
| `Urls.DefaultIsDirectMode` | src/Providers/AwsS3Provider.php:376-387 | a configuration without `cloudfront.use` generates direct bucket URLs, with the `bucket.` prefix under the same `empty` test |

## Left out

- `connect` builds an AWS SDK `S3Client` and hands it to the provider's own setter `setS3Client`; `listObjects`, `putObject`, and `BatchDelete` are AWS SDK calls. Only the outcomes of `connect` and of the SDK calls are modelled, as inputs. The bucket name passed to each call is not recorded.
- `fopen`/`fclose` on the local file are I/O and not modelled. `fclose` runs only after a successful put, so a rejected put leaves the handle open.
- Console `writeln` messages are not modelled. No behaviour depends on them.
- `Config.Init`: `init` stores the merged configuration back into the provider's defaults (line 132), so a second `init` on the same provider merges over the first configuration. The model always merges over the declared defaults; repeated `init` calls on one provider are not covered.
- `ChangeDetection.FilesAlreadyOnBucket`: `transform` (line 278) rewrites the caller's collection in place, so after `upload` the skipped assets are `null` in the collection the caller passed. Only the returned plan is modelled, not this side effect on the argument.
- `Config.Init` requires the user configuration to be an array. `array_replace_recursive` given a non-array raises a `TypeError` in PHP 8 (and warns and returns `null` in PHP 7); that error path is not modelled.
- `provider_validator->validate` is not modelled. `Config.Init` does not reject a configuration that lacks a required setting.
- `cdn_helper->parseUrl` is not modelled. It is a function parameter of `Urls.UrlGenerator`.
- The `ACL`, `CacheControl`, `Metadata`, and `Expires` values passed to `putObject` carry no logic and are not modelled. The last three are read from the merged configuration that `init` stores (lines 195-197), under keys the declared defaults do not have.
- `Upload.Upload`: `accepted[i]` distinguishes only a put that succeeded from one that raised an `S3Exception`. Other failures, such as `fopen` failing, are not modelled. The oracle must supply one outcome per asset (`|accepted| >= |assets|`) because the plan is at most that long.
- Remote sizes are whole numbers, so the `(int)` cast on `Size` is the identity.
- PHP integer array keys are not modelled; keys are strings. Reading a key through a scalar yields `null`, and PHP's string-offset behaviour is not modelled.
- `PhpArrays.StringOf` converts an array to `"Array"`, as PHP concatenation does, and `true` to `"1"`; the contract does not state these two cases. PHP's `rtrim` given an array instead warns or raises, depending on the PHP version.
- `Urls.GetBucket` returns the empty string when `buckets` is not an array or is empty. PHP 7's `key()` behaves this way; PHP 8's `key()` raises a `TypeError` for a non-array.
- The `threshold` setting is carried into the supplier but used by nothing in this file.
- `src/Providers/Provider.php` declares properties and an abstract `upload` only. It has no behaviour to model.

=== FILE: change_detection.dfy ===
/** Change detection: which local assets still have to be uploaded, given one listing of the
    bucket. An asset is uploaded when the bucket has no object under its path, or has one of a
    different size; timestamps and contents are never compared. */
module ChangeDetection {
  import opened Outcomes
  import opened Strings

  /** A local file offered for upload: the path name its `getPathName()` returns, its real path
      on disk, and its size in bytes. */
  datatype LocalAsset = LocalAsset(pathName: string, realPath: string, size: nat)

  /** One object of a bucket listing, reduced to the fields the provider reads. */
  datatype RemoteObject = RemoteObject(key: string, lastModified: int, size: nat)

  /** The outcome of one `listObjects` call: the objects of the listing's single page, or an
      `S3Exception`. */
  datatype Listing = Listed(contents: seq<RemoteObject>) | ListFailed

  /** The most objects one ListObjects response of the S3 API carries (its `MaxKeys` default). */
  const MaxKeys: nat := 1000

  /** The page one unpaginated `listObjects` call returns for a bucket whose objects, in listing
      order, are `bucket`: all of them when they fit in one page, the first `MaxKeys` otherwise. */
  function FirstPage(bucket: seq<RemoteObject>): (page: seq<RemoteObject>)
    ensures page <= bucket
    ensures |page| == if |bucket| <= MaxKeys then |bucket| else MaxKeys
  {
    if |bucket| <= MaxKeys then bucket else bucket[..MaxKeys]
  }

  /** The listing indexed by key, as the provider collects it before comparing. */
  type Index = map<string, RemoteObject>

  /** The listing's objects put into a map one after the other, so a key listed twice maps to
      its last occurrence. */
  function IndexListing(contents: seq<RemoteObject>): (idx: Index)
    ensures forall i :: 0 <= i < |contents| ==> contents[i].key in idx
    ensures forall k :: k in idx ==> idx[k].key == k
  {
    if |contents| == 0 then map[]
    else
      var init, last := contents[..|contents| - 1], contents[|contents| - 1];
      var prev := IndexListing(init);
      assert forall i :: 0 <= i < |init| ==> init[i] == contents[i];
      prev[last.key := last]
  }

  /** Every object of the index is one of the listing's objects. */
  lemma {:induction false} IndexListingFromListing(contents: seq<RemoteObject>, k: string)
    requires k in IndexListing(contents)
    ensures IndexListing(contents)[k] in contents
  {
    var n := |contents| - 1;
    if contents[n].key != k {
      IndexListingFromListing(contents[..n], k);
    }
  }

  /** A key listed more than once maps to its last occurrence in the listing. */
  lemma {:induction false} IndexListingLastWins(contents: seq<RemoteObject>, i: nat)
    requires i < |contents|
    requires forall j :: i < j < |contents| ==> contents[j].key != contents[i].key
    ensures IndexListing(contents)[contents[i].key] == contents[i]
  {
    var n := |contents| - 1;
    if i < n {
      var init := contents[..n];
      assert init[i] == contents[i];
      IndexListingLastWins(init, i);
    }
  }

  lemma UnionUpdate(m1: Index, m2: Index, k: string, v: RemoteObject)
    ensures (m1 + m2)[k := v] == m1 + m2[k := v]
  {
  }

  /** Indexing a listing made of two parts: where both list a key, the second part wins. */
  lemma {:induction false} IndexListingAppend(c1: seq<RemoteObject>, c2: seq<RemoteObject>)
    ensures IndexListing(c1 + c2) == IndexListing(c1) + IndexListing(c2)
  {
    if |c2| > 0 {
      var c2', x := c2[..|c2| - 1], c2[|c2| - 1];
      var c := c1 + c2;
      assert c[..|c| - 1] == c1 + c2' && c[|c| - 1] == x;
      IndexListingAppend(c1, c2');
      var m1, m2 := IndexListing(c1), IndexListing(c2');
      assert IndexListing(c) == (m1 + m2)[x.key := x];
      assert IndexListing(c2) == m2[x.key := x] by {
        assert c2[..|c2| - 1] == c2';
      }
      UnionUpdate(m1, m2, x.key, x);
    } else {
      assert c1 + c2 == c1;
    }
  }

  /** The key an asset is looked up under in the listing: its path name with backslashes turned
      into slashes. The upload folder is not part of it. */
  function LookupKey(a: LocalAsset): string {
    Normalise(a.pathName)
  }

  /** The decision table: upload when the key is not listed, or is listed with another size. */
  predicate NeedsUpload(idx: Index, a: LocalAsset) {
    LookupKey(a) !in idx || idx[LookupKey(a)].size != a.size
  }

  /** The transform step for one asset: the asset itself when it is to be uploaded, `null` when
      it is to be skipped. */
  function Classify(idx: Index, a: LocalAsset): (r: Option<LocalAsset>)
    ensures r.Some? <==> NeedsUpload(idx, a)
    ensures r.Some? ==> r.value == a
  {
    var remote := if LookupKey(a) in idx then Some(idx[LookupKey(a)]) else None;
    if remote.None? then Some(a)
    else if a.size != remote.value.size then Some(a)
    else None
  }

  /** Every asset transformed, in order: the asset itself where it needs uploading, `null`
      elsewhere. */
  function Classified(idx: Index, assets: seq<LocalAsset>): (r: seq<Option<LocalAsset>>)
    ensures |r| == |assets|
    ensures forall i :: 0 <= i < |r| ==> (r[i].Some? <==> NeedsUpload(idx, assets[i]))
    ensures forall i :: 0 <= i < |r| && r[i].Some? ==> r[i].value == assets[i]
  {
    seq(|assets|, i requires 0 <= i < |assets| => Classify(idx, assets[i]))
  }

  /** The entries that are not `null`, in order. */
  function Reject(xs: seq<Option<LocalAsset>>): (r: seq<LocalAsset>)
    ensures |r| <= |xs|
  {
    if |xs| == 0 then []
    else (if xs[0].Some? then [xs[0].value] else []) + Reject(xs[1..])
  }

  /** `reject` drops exactly the `null` entries: every other value is kept as often as it
      occurs. */
  lemma {:induction false} RejectCount(xs: seq<Option<LocalAsset>>, a: LocalAsset)
    ensures multiset(Reject(xs))[a] == multiset(xs)[Some(a)]
  {
    if |xs| > 0 {
      RejectCount(xs[1..], a);
      assert xs == [xs[0]] + xs[1..];
      assert multiset(xs) == multiset([xs[0]]) + multiset(xs[1..]);
    }
  }

  /** `sub` is `s` with some elements left out and the rest in their original order. */
  ghost predicate IsSubsequence(sub: seq<LocalAsset>, s: seq<LocalAsset>)
    decreases |s|
  {
    |sub| == 0
    || (|s| > 0 && (IsSubsequence(sub, s[1..]) || (sub[0] == s[0] && IsSubsequence(sub[1..], s[1..]))))
  }

  /** The plan: the assets still to upload, given the bucket's listing. An empty listing keeps
      every asset. Otherwise the plan keeps exactly the assets the decision table selects, each
      as often as it occurs, in their original order. */
  function FilesAlreadyOnBucket(assets: seq<LocalAsset>, contents: seq<RemoteObject>): (plan: seq<LocalAsset>)
    ensures |contents| == 0 ==> plan == assets
    ensures |plan| <= |assets|
    ensures IsSubsequence(plan, assets)
    ensures forall a :: a in plan <==> a in assets && NeedsUpload(IndexListing(contents), a)
    ensures forall a :: multiset(plan)[a] == (if NeedsUpload(IndexListing(contents), a) then multiset(assets)[a] else 0)
  {
    var idx := IndexListing(contents);
    var plan := if |contents| == 0 then assets else Reject(Classified(idx, assets));
    if |contents| == 0 then
      EmptyIndexKeepsAll(assets);
      SelectionProperties(idx, assets);
      plan
    else
      SelectionProperties(idx, assets);
      plan
  }

  lemma {:induction false} EmptyIndexKeepsAll(assets: seq<LocalAsset>)
    ensures Reject(Classified(map[], assets)) == assets
  {
    if |assets| > 0 {
      assert Classified(map[], assets)[1..] == Classified(map[], assets[1..]);
      EmptyIndexKeepsAll(assets[1..]);
      assert [assets[0]] + assets[1..] == assets;
    }
  }

  lemma ClassifiedTail(idx: Index, assets: seq<LocalAsset>)
    requires |assets| > 0
    ensures Classified(idx, assets)[1..] == Classified(idx, assets[1..])
    ensures Reject(Classified(idx, assets)) ==
      (if NeedsUpload(idx, assets[0]) then [assets[0]] else []) + Reject(Classified(idx, assets[1..]))
  {
    assert Classified(idx, assets)[1..] == Classified(idx, assets[1..]);
  }

  /** Transform-then-reject keeps the order of the assets. */
  lemma {:induction false} SelectionIsSubsequence(idx: Index, assets: seq<LocalAsset>)
    ensures IsSubsequence(Reject(Classified(idx, assets)), assets)
  {
    if |assets| > 0 {
      var r := Reject(Classified(idx, assets));
      var rest := assets[1..];
      ClassifiedTail(idx, assets);
      SelectionIsSubsequence(idx, rest);
      var r' := Reject(Classified(idx, rest));
      if NeedsUpload(idx, assets[0]) {
        assert r == [assets[0]] + r';
        assert r[0] == assets[0] && r[1..] == r';
        assert IsSubsequence(r[1..], assets[1..]);
      } else {
        assert r == r';
        assert IsSubsequence(r, assets[1..]);
      }
    }
  }

  /** Transform-then-reject keeps each selected asset as often as it occurs, and no other. */
  lemma {:induction false} SelectionCount(idx: Index, assets: seq<LocalAsset>, a: LocalAsset)
    ensures multiset(Reject(Classified(idx, assets)))[a] == (if NeedsUpload(idx, a) then multiset(assets)[a] else 0)
  {
    if |assets| > 0 {
      var rest := assets[1..];
      ClassifiedTail(idx, assets);
      SelectionCount(idx, rest, a);
      CountStep(assets[0], rest, Reject(Classified(idx, assets)), Reject(Classified(idx, rest)), a,
        NeedsUpload(idx, assets[0]), NeedsUpload(idx, a));
      assert assets == [assets[0]] + rest;
    }
  }

  /** One step of the count: a selection that keeps `x` exactly when it keeps every copy of `a`
      equal to `x` keeps the count of `a` from the tail to the whole sequence. */
  lemma CountStep(x: LocalAsset, rest: seq<LocalAsset>, r: seq<LocalAsset>, r': seq<LocalAsset>, a: LocalAsset, keep: bool, keepA: bool)
    requires r == (if keep then [x] else []) + r'
    requires multiset(r')[a] == (if keepA then multiset(rest)[a] else 0)
    requires x == a ==> keep == keepA
    ensures multiset(r)[a] == (if keepA then multiset([x] + rest)[a] else 0)
  {
    assert multiset([x] + rest) == multiset([x]) + multiset(rest);
    if keep {
      assert multiset(r) == multiset([x]) + multiset(r');
    }
  }

  lemma SelectionProperties(idx: Index, assets: seq<LocalAsset>)
    ensures IsSubsequence(Reject(Classified(idx, assets)), assets)
    ensures forall a :: multiset(Reject(Classified(idx, assets)))[a] == (if NeedsUpload(idx, a) then multiset(assets)[a] else 0)
    ensures forall a :: a in Reject(Classified(idx, assets)) <==> a in assets && NeedsUpload(idx, a)
  {
    var r := Reject(Classified(idx, assets));
    SelectionIsSubsequence(idx, assets);
    forall a
      ensures multiset(r)[a] == (if NeedsUpload(idx, a) then multiset(assets)[a] else 0)
      ensures a in r <==> a in assets && NeedsUpload(idx, a)
    {
      SelectionCount(idx, assets, a);
      assert a in r <==> multiset(r)[a] > 0;
      assert a in assets <==> multiset(assets)[a] > 0;
    }
  }

  /** A subsequence as long as the sequence is the sequence itself. */
  lemma {:induction false} FullSubsequence(sub: seq<LocalAsset>, s: seq<LocalAsset>)
    requires IsSubsequence(sub, s) && |sub| == |s|
    ensures sub == s
    decreases |s|
  {
    if |s| > 0 {
      if IsSubsequence(sub, s[1..]) {
        SubsequenceNoLonger(sub, s[1..]);
      }
      FullSubsequence(sub[1..], s[1..]);
      assert sub == [sub[0]] + sub[1..];
    }
  }

  lemma {:induction false} SubsequenceNoLonger(sub: seq<LocalAsset>, s: seq<LocalAsset>)
    requires IsSubsequence(sub, s)
    ensures |sub| <= |s|
    decreases |s|
  {
    if |sub| > 0 {
      if IsSubsequence(sub, s[1..]) {
        SubsequenceNoLonger(sub, s[1..]);
      } else {
        SubsequenceNoLonger(sub[1..], s[1..]);
      }
    }
  }

  /** When every asset is to be uploaded, the plan is the whole input, in order. */
  lemma AllSelectedKeepsAll(assets: seq<LocalAsset>, contents: seq<RemoteObject>)
    requires forall i :: 0 <= i < |assets| ==> NeedsUpload(IndexListing(contents), assets[i])
    ensures FilesAlreadyOnBucket(assets, contents) == assets
  {
    var plan := FilesAlreadyOnBucket(assets, contents);
    assert multiset(plan) == multiset(assets) by {
      forall a
        ensures multiset(plan)[a] == multiset(assets)[a]
      {
        if a in assets {
          var i :| 0 <= i < |assets| && assets[i] == a;
        }
      }
    }
    assert |plan| == |multiset(plan)| == |multiset(assets)| == |assets|;
    FullSubsequence(plan, assets);
  }

  /** When no asset is to be uploaded, the plan is empty. */
  lemma NoneSelectedIsEmpty(assets: seq<LocalAsset>, contents: seq<RemoteObject>)
    requires forall i :: 0 <= i < |assets| ==> !NeedsUpload(IndexListing(contents), assets[i])
    ensures FilesAlreadyOnBucket(assets, contents) == []
  {
  }

  /** Two listings that list the same keys with the same sizes, in the same order. */
  ghost predicate SameKeysAndSizes(c1: seq<RemoteObject>, c2: seq<RemoteObject>) {
    |c1| == |c2| && forall i :: 0 <= i < |c1| ==> c1[i].key == c2[i].key && c1[i].size == c2[i].size
  }

  lemma {:induction false} IndexAgreesOnSizes(c1: seq<RemoteObject>, c2: seq<RemoteObject>)
    requires SameKeysAndSizes(c1, c2)
    ensures IndexListing(c1).Keys == IndexListing(c2).Keys
    ensures forall k :: k in IndexListing(c1) ==> IndexListing(c1)[k].size == IndexListing(c2)[k].size
  {
    if |c1| > 0 {
      IndexAgreesOnSizes(c1[..|c1| - 1], c2[..|c2| - 1]);
    }
  }

  /** Timestamps are never compared: listings that differ only in modification times give the
      same plan. */
  lemma TimestampsIgnored(assets: seq<LocalAsset>, c1: seq<RemoteObject>, c2: seq<RemoteObject>)
    requires SameKeysAndSizes(c1, c2)
    ensures FilesAlreadyOnBucket(assets, c1) == FilesAlreadyOnBucket(assets, c2)
  {
    IndexAgreesOnSizes(c1, c2);
    var i1, i2 := IndexListing(c1), IndexListing(c2);
    assert Classified(i1, assets) == Classified(i2, assets) by {
      forall i | 0 <= i < |assets|
        ensures Classify(i1, assets[i]) == Classify(i2, assets[i])
      {
        assert NeedsUpload(i1, assets[i]) == NeedsUpload(i2, assets[i]);
      }
    }
  }

  /** Size is the only change detected: an asset listed under its key with its own size is
      skipped, whatever its contents or time stamps. */
  lemma SameSizeIsSkipped(assets: seq<LocalAsset>, contents: seq<RemoteObject>, i: nat)
    requires i < |assets|
    requires exists j :: 0 <= j < |contents| && contents[j].key == LookupKey(assets[i])
    requires forall j :: 0 <= j < |contents| && contents[j].key == LookupKey(assets[i]) ==> contents[j].size == assets[i].size
    ensures assets[i] !in FilesAlreadyOnBucket(assets, contents)
  {
    var idx := IndexListing(contents);
    var k := LookupKey(assets[i]);
    assert k in idx;
    IndexListingFromListing(contents, k);
  }
}

=== FILE: config.dfy ===
/** The provider's configuration: the defaults, `init` merging the user's configuration over
    them into the flat supplier array, and `__get` reading the supplier. */
module Config {
  import opened PhpArrays

  /** `cloudfront` defaults: CloudFront off, no CDN URL. */
  const CloudFrontDefaults: Value := Arr([Item("use", Bool(false)), Item("cdn_url", Null)])

  /** The S3 section of the defaults. */
  const S3Defaults: Value :=
    Arr([
      Item("version", Null),
      Item("region", Null),
      Item("endpoint", Null),
      Item("buckets", Null),
      Item("upload_folder", Str("")),
      Item("http", Null),
      Item("acl", Str("public-read")),
      Item("cloudfront", CloudFrontDefaults)
    ])

  const AwsDefaults: Value := Arr([Item("s3", S3Defaults)])

  const ProvidersDefaults: Value := Arr([Item("aws", AwsDefaults)])

  /** The default configuration; optional settings get these values. */
  const Defaults: Value :=
    Arr([
      Item("url", Null),
      Item("threshold", Int(10)),
      Item("providers", ProvidersDefaults)
    ])

  /** Each supplier attribute and the configuration path it is read from, in supplier order. */
  const Fields: seq<(string, seq<string>)> := [
    ("provider_url", ["url"]),
    ("threshold", ["threshold"]),
    ("version", ["providers", "aws", "s3", "version"]),
    ("region", ["providers", "aws", "s3", "region"]),
    ("endpoint", ["providers", "aws", "s3", "endpoint"]),
    ("buckets", ["providers", "aws", "s3", "buckets"]),
    ("acl", ["providers", "aws", "s3", "acl"]),
    ("cloudfront", ["providers", "aws", "s3", "cloudfront", "use"]),
    ("cloudfront_url", ["providers", "aws", "s3", "cloudfront", "cdn_url"]),
    ("http", ["providers", "aws", "s3", "http"]),
    ("upload_folder", ["providers", "aws", "s3", "upload_folder"])
  ]

  /** `init`: merge the user's configuration over the defaults and pick out the supplier
      attributes. Every attribute is present in the supplier; its value is whatever the merged
      configuration holds at the attribute's path. */
  function Init(user: Value): (supplier: Value)
    requires user.Arr?
    ensures supplier.Arr? && Keys(supplier.items) == seq(|Fields|, i requires 0 <= i < |Fields| => Fields[i].0)
    ensures forall i :: 0 <= i < |Fields| ==>
      supplier.items[i].value == Lookup(ReplaceRecursive(Defaults, user), Fields[i].1)
  {
    var merged := ReplaceRecursive(Defaults, user);
    Arr(seq(|Fields|, i requires 0 <= i < |Fields| => Item(Fields[i].0, Lookup(merged, Fields[i].1))))
  }

  /** `__get($attr)`: the supplier's value for the attribute, or `null` when it has none. */
  function Get(supplier: Value, attr: string): (v: Value)
    ensures supplier.Arr? && UniqueKeys(supplier.items) ==>
      forall j :: 0 <= j < |supplier.items| && supplier.items[j].key == attr ==> v == supplier.items[j].value
    ensures (supplier.Arr? && exists j :: 0 <= j < |supplier.items| && supplier.items[j].key == attr) || v == Null
  {
    Entry(supplier, attr)
  }

  lemma FieldNamesUnique()
    ensures forall i, j :: 0 <= i < j < |Fields| ==> Fields[i].0 != Fields[j].0
  {
  }

  /** Reading one key off the front of a path. */
  lemma {:induction false} PathStep(v: Value, k: string, rest: seq<string>)
    ensures Has(v, [k] + rest) <==> v.Arr? && HasKey(v.items, k) && Has(Entry(v, k), rest)
    ensures Lookup(v, [k] + rest) == Lookup(Entry(v, k), rest)
  {
    assert ([k] + rest)[0] == k;
    assert ([k] + rest)[1..] == rest;
  }

  /** The entry of a well-formed array found by position. */
  lemma EntryAt(items: seq<Item>, j: nat)
    requires UniqueKeys(items) && j < |items|
    ensures HasKey(items, items[j].key)
    ensures EntryOf(items, items[j].key) == items[j].value
  {
  }

  lemma DefaultsTopShape()
    ensures HasKey(Defaults.items, "url") && Entry(Defaults, "url") == Null
    ensures HasKey(Defaults.items, "threshold") && Entry(Defaults, "threshold") == Int(10)
    ensures HasKey(Defaults.items, "providers") && Entry(Defaults, "providers") == ProvidersDefaults
    ensures HasKey(ProvidersDefaults.items, "aws") && Entry(ProvidersDefaults, "aws") == AwsDefaults
    ensures HasKey(AwsDefaults.items, "s3") && Entry(AwsDefaults, "s3") == S3Defaults
  {
    EntryAt(Defaults.items, 0);
    EntryAt(Defaults.items, 1);
    EntryAt(Defaults.items, 2);
    EntryAt(ProvidersDefaults.items, 0);
    EntryAt(AwsDefaults.items, 0);
  }

  lemma S3DefaultsShape()
    ensures forall j :: 0 <= j < |S3Defaults.items| ==>
      HasKey(S3Defaults.items, S3Defaults.items[j].key) && Entry(S3Defaults, S3Defaults.items[j].key) == S3Defaults.items[j].value
    ensures HasKey(CloudFrontDefaults.items, "use") && Entry(CloudFrontDefaults, "use") == Bool(false)
    ensures HasKey(CloudFrontDefaults.items, "cdn_url") && Entry(CloudFrontDefaults, "cdn_url") == Null
  {
    EntryAt(CloudFrontDefaults.items, 0);
    EntryAt(CloudFrontDefaults.items, 1);
    assert UniqueKeys(S3Defaults.items);
    forall j | 0 <= j < |S3Defaults.items|
      ensures HasKey(S3Defaults.items, S3Defaults.items[j].key)
      ensures Entry(S3Defaults, S3Defaults.items[j].key) == S3Defaults.items[j].value
    {
      EntryAt(S3Defaults.items, j);
    }
  }

  /** Paths into the S3 section of the defaults. */
  lemma {:induction false} DefaultsS3Path(rest: seq<string>)
    ensures Has(Defaults, ["providers", "aws", "s3"] + rest) <==> Has(S3Defaults, rest)
    ensures Lookup(Defaults, ["providers", "aws", "s3"] + rest) == Lookup(S3Defaults, rest)
  {
    DefaultsTopShape();
    assert ["providers", "aws", "s3"] + rest == ["providers"] + (["aws"] + (["s3"] + rest));
    PathStep(Defaults, "providers", ["aws"] + (["s3"] + rest));
    PathStep(ProvidersDefaults, "aws", ["s3"] + rest);
    PathStep(AwsDefaults, "s3", rest);
  }

  /** A path of one key into an array whose entry for it is not an array. */
  lemma {:induction false} OneKeyPath(v: Value, k: string)
    requires v.Arr? && HasKey(v.items, k)
    ensures Has(v, [k]) && Lookup(v, [k]) == Entry(v, k)
  {
    PathStep(v, k, []);
    assert [k] + [] == [k];
  }

  lemma {:induction false} DefaultsS3Field(j: nat)
    requires j < 7
    ensures Has(Defaults, ["providers", "aws", "s3", S3Defaults.items[j].key])
    ensures Lookup(Defaults, ["providers", "aws", "s3", S3Defaults.items[j].key]) == S3Defaults.items[j].value
  {
    DefaultsTopShape();
    S3DefaultsShape();
    var k := S3Defaults.items[j].key;
    DefaultsS3Path([k]);
    assert ["providers", "aws", "s3"] + [k] == ["providers", "aws", "s3", k];
    OneKeyPath(S3Defaults, k);
  }

  lemma {:induction false} DefaultsCloudFrontField(k: string)
    requires k == "use" || k == "cdn_url"
    ensures Has(Defaults, ["providers", "aws", "s3", "cloudfront", k])
    ensures !Lookup(Defaults, ["providers", "aws", "s3", "cloudfront", k]).Arr?
  {
    DefaultsTopShape();
    S3DefaultsShape();
    DefaultsS3Path(["cloudfront", k]);
    assert ["providers", "aws", "s3"] + ["cloudfront", k] == ["providers", "aws", "s3", "cloudfront", k];
    assert S3Defaults.items[7].key == "cloudfront";
    PathStep(S3Defaults, "cloudfront", [k]);
    OneKeyPath(CloudFrontDefaults, k);
  }

  lemma DefaultsHaveTopFields(i: nat)
    requires i < 2
    ensures Has(Defaults, Fields[i].1) && !Lookup(Defaults, Fields[i].1).Arr?
  {
    EntryAt(Defaults.items, i);
    OneKeyPath(Defaults, Defaults.items[i].key);
  }

  lemma DefaultsHaveS3Fields(i: nat)
    requires 2 <= i < 7 || 9 <= i < |Fields|
    ensures Has(Defaults, Fields[i].1) && !Lookup(Defaults, Fields[i].1).Arr?
  {
    if i < 6 {
      DefaultsHaveLeadingS3Fields(i);
    } else {
      DefaultsHaveTrailingS3Fields(i);
    }
  }

  lemma DefaultsHaveLeadingS3Fields(i: nat)
    requires 2 <= i < 6
    ensures Has(Defaults, Fields[i].1) && !Lookup(Defaults, Fields[i].1).Arr?
  {
    // version, region, endpoint and buckets are entries 0 to 3 of the S3 defaults
    DefaultsS3Field(i - 2);
    assert Fields[i].1 == ["providers", "aws", "s3", S3Defaults.items[i - 2].key];
  }

  lemma DefaultsHaveTrailingS3Fields(i: nat)
    requires i == 6 || i == 9 || i == 10
    ensures Has(Defaults, Fields[i].1) && !Lookup(Defaults, Fields[i].1).Arr?
  {
    // acl, http and upload_folder are entries 6, 5 and 4 of the S3 defaults
    DefaultsS3Field(if i == 6 then 6 else if i == 9 then 5 else 4);
  }

  lemma {:induction false} DefaultsCloudFrontValue()
    ensures Lookup(Defaults, ["providers", "aws", "s3", "cloudfront", "use"]) == Bool(false)
  {
    DefaultsTopShape();
    S3DefaultsShape();
    DefaultsS3Path(["cloudfront", "use"]);
    assert ["providers", "aws", "s3"] + ["cloudfront", "use"] == ["providers", "aws", "s3", "cloudfront", "use"];
    assert S3Defaults.items[7].key == "cloudfront";
    PathStep(S3Defaults, "cloudfront", ["use"]);
    OneKeyPath(CloudFrontDefaults, "use");
  }

  lemma DefaultsHaveCloudFrontFields(i: nat)
    requires i == 7 || i == 8
    ensures Has(Defaults, Fields[i].1) && !Lookup(Defaults, Fields[i].1).Arr?
  {
    DefaultsCloudFrontField(if i == 7 then "use" else "cdn_url");
  }

  /** Every supplier attribute has a default, and none of the defaults is an array. */
  lemma DefaultsHaveEveryField(i: nat)
    requires i < |Fields|
    ensures Has(Defaults, Fields[i].1)
    ensures !Lookup(Defaults, Fields[i].1).Arr?
  {
    if i < 2 {
      DefaultsHaveTopFields(i);
    } else if i == 7 || i == 8 {
      DefaultsHaveCloudFrontFields(i);
    } else {
      DefaultsHaveS3Fields(i);
    }
  }

  /** `__get` on the supplier built by `init` reads the merged configuration at the attribute's
      path, and `null` for any name that is not a supplier attribute. */
  lemma {:induction false} GetAfterInit(user: Value, attr: string)
    requires user.Arr?
    ensures forall i :: 0 <= i < |Fields| && Fields[i].0 == attr ==>
      Get(Init(user), attr) == Lookup(ReplaceRecursive(Defaults, user), Fields[i].1)
    ensures (forall i :: 0 <= i < |Fields| ==> Fields[i].0 != attr) ==> Get(Init(user), attr) == Null
  {
    var s := Init(user);
    FieldNamesUnique();
    assert UniqueKeys(s.items) by {
      forall i, j | 0 <= i < j < |s.items|
        ensures s.items[i].key != s.items[j].key
      {
        assert s.items[i].key == Keys(s.items)[i];
        assert s.items[j].key == Keys(s.items)[j];
      }
    }
    if forall i :: 0 <= i < |Fields| ==> Fields[i].0 != attr {
      forall j | 0 <= j < |s.items|
        ensures s.items[j].key != attr
      {
        assert s.items[j].key == Keys(s.items)[j];
      }
    }
  }

  /** A setting the user gives is what the supplier holds, arrays such as `buckets` included: no
      default at an attribute's path is an array, so the user's value replaces it whole. */
  lemma {:induction false} InitTakesUserSetting(user: Value, i: nat)
    requires user.Arr? && WellFormed(user)
    requires i < |Fields|
    requires Has(user, Fields[i].1)
    ensures Get(Init(user), Fields[i].0) == Lookup(user, Fields[i].1)
  {
    GetAfterInit(user, Fields[i].0);
    DefaultsHaveEveryField(i);
    ReplacementWins(Defaults, user, Fields[i].1);
  }

  /** A setting the user leaves out gets its default. */
  lemma {:induction false} InitFillsDefault(user: Value, i: nat)
    requires user.Arr? && WellFormed(user)
    requires i < |Fields|
    requires Untouched(user, Fields[i].1)
    ensures Get(Init(user), Fields[i].0) == Lookup(Defaults, Fields[i].1)
  {
    GetAfterInit(user, Fields[i].0);
    DefaultsHaveEveryField(i);
    BaseKeptWhereUntouched(Defaults, user, Fields[i].1);
  }

  /** With an empty user configuration every attribute takes its default. */
  lemma EmptyConfigurationDefaults(i: nat)
    requires i < |Fields|
    ensures Get(Init(Arr([])), Fields[i].0) == Lookup(Defaults, Fields[i].1)
  {
    var u := Arr([]);
    assert WellFormed(u);
    assert !HasKey(u.items, Fields[i].1[0]);
    InitFillsDefault(u, i);
  }

  /** A configuration that does not set the ACL uploads objects `public-read`. */
  lemma DefaultAcl(user: Value)
    requires user.Arr? && WellFormed(user)
    requires Untouched(user, ["providers", "aws", "s3", "acl"])
    ensures Get(Init(user), "acl") == Str("public-read")
  {
    assert Fields[6] == ("acl", ["providers", "aws", "s3", "acl"]);
    InitFillsDefault(user, 6);
    DefaultsS3Field(6);
  }

  /** A configuration that does not set an upload folder stores objects at the bucket's root. */
  lemma DefaultUploadFolder(user: Value)
    requires user.Arr? && WellFormed(user)
    requires Untouched(user, ["providers", "aws", "s3", "upload_folder"])
    ensures Get(Init(user), "upload_folder") == Str("")
  {
    assert Fields[10] == ("upload_folder", ["providers", "aws", "s3", "upload_folder"]);
    InitFillsDefault(user, 10);
    DefaultsUploadFolderValue();
  }

  lemma {:induction false} DefaultsUploadFolderValue()
    ensures Lookup(Defaults, ["providers", "aws", "s3", "upload_folder"]) == Str("")
  {
    DefaultsS3Field(4);
    assert S3Defaults.items[4].key == "upload_folder";
  }

  /** A configuration that does not set `cloudfront.use` leaves CloudFront off. */
  lemma DefaultCloudFrontOff(user: Value)
    requires user.Arr? && WellFormed(user)
    requires Untouched(user, ["providers", "aws", "s3", "cloudfront", "use"])
    ensures Get(Init(user), "cloudfront") == Bool(false)
  {
    assert Fields[7] == ("cloudfront", ["providers", "aws", "s3", "cloudfront", "use"]);
    InitFillsDefault(user, 7);
    DefaultsCloudFrontValue();
  }
}

=== FILE: outcomes.dfy ===
/** Small result types shared by the modules of the model. */
module Outcomes {

  /** A value that may be absent. */
  datatype Option<+T> = None | Some(value: T)

  /** How a PHP method call ends: it returns a boolean, or an exception escapes it. */
  datatype Exit = Returned(value: bool) | Threw
}

=== FILE: php_arrays.dfy ===
/** PHP values as the provider's configuration holds them, with ordered arrays keyed by strings,
    and the two array operations the provider relies on: reading a nested entry and
    `array_replace_recursive`. */
module PhpArrays {
  import opened Outcomes
  import opened Strings

  /** A PHP value. Arrays are ordered lists of key/value entries. */
  datatype Value = Null | Bool(b: bool) | Int(i: int) | Str(s: string) | Arr(items: seq<Item>)

  datatype Item = Item(key: string, value: Value)

  /** The keys of an array, in order. */
  function Keys(items: seq<Item>): (ks: seq<string>)
    ensures |ks| == |items|
    ensures forall i :: 0 <= i < |items| ==> ks[i] == items[i].key
  {
    seq(|items|, i requires 0 <= i < |items| => items[i].key)
  }

  /** Keys of a PHP array are unique. */
  ghost predicate UniqueKeys(items: seq<Item>) {
    forall i, j :: 0 <= i < j < |items| ==> items[i].key != items[j].key
  }

  /** Every array nested in the value has unique keys, as every PHP array does. */
  ghost predicate WellFormed(v: Value) {
    match v
    case Arr(items) =>
      && UniqueKeys(items)
      && forall i :: 0 <= i < |items| ==> WellFormed(items[i].value)
    case _ => true
  }

  /** Position of the entry for key `k`, if the array has one. */
  function IndexOf(items: seq<Item>, k: string): (r: Option<nat>)
    ensures r.None? ==> forall j :: 0 <= j < |items| ==> items[j].key != k
    ensures r.Some? ==> r.value < |items| && items[r.value].key == k
    ensures r.Some? ==> forall j :: 0 <= j < r.value ==> items[j].key != k
  {
    if |items| == 0 then None
    else if items[0].key == k then Some(0)
    else match IndexOf(items[1..], k)
      case None => None
      case Some(j) => Some(j + 1)
  }

  /** `$items[$k]` as read: the entry's value, or `null` when there is none. */
  function EntryOf(items: seq<Item>, k: string): (v: Value)
    ensures (exists j :: 0 <= j < |items| && items[j].key == k) || v == Null
    ensures UniqueKeys(items) ==> forall j :: 0 <= j < |items| && items[j].key == k ==> v == items[j].value
  {
    match IndexOf(items, k)
    case None => Null
    case Some(j) => items[j].value
  }

  /** `$v[$k]` on any value: reading through anything but an array yields `null`. */
  function Entry(v: Value, k: string): (r: Value)
    ensures r != Null ==> v.Arr? && exists j :: 0 <= j < |v.items| && v.items[j].key == k
  {
    if v.Arr? then EntryOf(v.items, k) else Null
  }

  /** True when the array holds an entry for `k`. */
  predicate HasKey(items: seq<Item>, k: string) {
    IndexOf(items, k).Some?
  }

  /** `$v[$p0][$p1]...`: the value reached by following a path of keys. */
  function Lookup(v: Value, path: seq<string>): Value
    decreases |path|
  {
    if |path| == 0 then v else Lookup(Entry(v, path[0]), path[1..])
  }

  /** Following a path in two parts reaches the same value as following it at once. */
  lemma {:induction false} LookupConcat(v: Value, p: seq<string>, q: seq<string>)
    ensures Lookup(v, p + q) == Lookup(Lookup(v, p), q)
    decreases |p|
  {
    if |p| == 0 {
      assert p + q == q;
    } else {
      assert (p + q)[1..] == p[1..] + q;
      LookupConcat(Entry(v, p[0]), p[1..], q);
    }
  }

  /** Reading a key of anything but an array yields `null`, and so does every read after it. */
  lemma {:induction false} LookupThroughScalar(v: Value, path: seq<string>)
    requires |path| > 0 && !v.Arr?
    ensures Lookup(v, path) == Null
    decreases |path|
  {
    if |path| > 1 {
      LookupThroughScalar(Null, path[1..]);
    }
  }

  /** Every key of the path is present: arrays all the way down to the last key. */
  predicate Has(v: Value, path: seq<string>)
    decreases |path|
  {
    |path| == 0 || (v.Arr? && HasKey(v.items, path[0]) && Has(Entry(v, path[0]), path[1..]))
  }

  /** `$items[$k] = $v`: overwrite the entry in place, or append a new one at the end. */
  function Set(items: seq<Item>, k: string, v: Value): (r: seq<Item>)
    ensures EntryOf(r, k) == v
    ensures forall k' :: k' != k ==> EntryOf(r, k') == EntryOf(items, k')
    ensures HasKey(r, k)
    ensures forall k' :: k' != k ==> (HasKey(r, k') <==> HasKey(items, k'))
    ensures Keys(r) == if HasKey(items, k) then Keys(items) else Keys(items) + [k]
    ensures UniqueKeys(items) ==> UniqueKeys(r)
  {
    match IndexOf(items, k)
    case Some(j) =>
      SetInPlace(items, k, v, j);
      items[j := Item(k, v)]
    case None =>
      SetAppend(items, k, v);
      items + [Item(k, v)]
  }

  /** Where the array already has the key, only that entry's value changes. */
  lemma SetInPlace(items: seq<Item>, k: string, v: Value, j: nat)
    requires IndexOf(items, k) == Some(j)
    ensures
      var r := items[j := Item(k, v)];
      && Keys(r) == Keys(items)
      && EntryOf(r, k) == v
      && (forall k' :: k' != k ==> EntryOf(r, k') == EntryOf(items, k'))
      && (forall k' :: HasKey(r, k') <==> HasKey(items, k'))
      && (UniqueKeys(items) ==> UniqueKeys(r))
  {
    var r := items[j := Item(k, v)];
    assert Keys(r) == Keys(items);
    forall k'
      ensures IndexOf(r, k') == IndexOf(items, k')
    {
      IndexOfKeys(r, items, k');
    }
  }

  /** Where the array lacks the key, the new entry goes last and nothing else moves. */
  lemma SetAppend(items: seq<Item>, k: string, v: Value)
    requires IndexOf(items, k).None?
    ensures
      var r := items + [Item(k, v)];
      && Keys(r) == Keys(items) + [k]
      && EntryOf(r, k) == v
      && HasKey(r, k)
      && (forall k' :: k' != k ==> EntryOf(r, k') == EntryOf(items, k'))
      && (forall k' :: k' != k ==> (HasKey(r, k') <==> HasKey(items, k')))
      && (UniqueKeys(items) ==> UniqueKeys(r))
  {
    var r := items + [Item(k, v)];
    assert Keys(r) == Keys(items) + [k];
    IndexOfAppend(items, Item(k, v), k);
    forall k' | k' != k
      ensures IndexOf(r, k') == IndexOf(items, k')
    {
      IndexOfAppend(items, Item(k, v), k');
    }
  }

  /** Where an entry is found depends only on the keys. */
  lemma {:induction false} IndexOfKeys(a: seq<Item>, b: seq<Item>, k: string)
    requires Keys(a) == Keys(b)
    ensures IndexOf(a, k) == IndexOf(b, k)
    decreases |a|
  {
    if |a| > 0 {
      assert a[0].key == Keys(a)[0] && b[0].key == Keys(b)[0];
      assert Keys(a[1..]) == Keys(a)[1..] && Keys(b[1..]) == Keys(b)[1..];
      IndexOfKeys(a[1..], b[1..], k);
    }
  }

  lemma {:induction false} IndexOfAppend(items: seq<Item>, it: Item, k: string)
    ensures IndexOf(items + [it], k) ==
      if HasKey(items, k) then IndexOf(items, k)
      else if it.key == k then Some(|items|)
      else None
  {
    if |items| > 0 {
      assert (items + [it])[1..] == items[1..] + [it];
      IndexOfAppend(items[1..], it, k);
    }
  }

  /** `array_replace_recursive($base, $repl)` on two values: when both are arrays each entry of
      `repl` replaces the entry of `base` under the same key, recursively where both entries
      are arrays; otherwise the replacement value is taken whole. */
  function ReplaceRecursive(base: Value, repl: Value): Value
    decreases repl
  {
    if base.Arr? && repl.Arr? then Arr(ReplaceItems(base.items, repl.items)) else repl
  }

  /** The entries of `src` written into `dest` one at a time, in order. */
  function ReplaceItems(dest: seq<Item>, src: seq<Item>): seq<Item>
    decreases src
  {
    if |src| == 0 then dest
    else
      var k := src[0].key;
      ReplaceItems(Set(dest, k, ReplaceRecursive(EntryOf(dest, k), src[0].value)), src[1..])
  }

  /** The keys of `ks` not in `seen`, in the order of their first occurrence in `ks`, each once. */
  function NewKeys(seen: seq<string>, ks: seq<string>): (r: seq<string>)
    ensures forall x :: x in r <==> x in ks && x !in seen
    ensures forall i, j :: 0 <= i < j < |r| ==> r[i] != r[j]
    decreases |ks|
  {
    if |ks| == 0 then []
    else if ks[0] in seen then NewKeys(seen, ks[1..])
    else
      var rest := NewKeys(seen + [ks[0]], ks[1..]);
      assert ks[0] !in rest;
      [ks[0]] + rest
  }

  /** An array holds an entry for `k` exactly when `k` is one of its keys. */
  lemma HasKeyInKeys(items: seq<Item>, k: string)
    ensures HasKey(items, k) <==> k in Keys(items)
  {
    if HasKey(items, k) {
      assert Keys(items)[IndexOf(items, k).value] == k;
    }
  }

  lemma KeysCons(items: seq<Item>)
    requires |items| > 0
    ensures Keys(items) == [items[0].key] + Keys(items[1..])
  {
  }

  /** Appending `k` when it is new and then collecting the new keys of the rest gives the new
      keys of `[k] + ks`. */
  lemma NewKeysStep(seen: seq<string>, seen': seq<string>, k: string, ks: seq<string>)
    requires seen' == if k in seen then seen else seen + [k]
    ensures seen + NewKeys(seen, [k] + ks) == seen' + NewKeys(seen', ks)
  {
    assert ([k] + ks)[1..] == ks;
  }

  /** The merged array keeps every base key in its place and appends after them the keys of the
      replacement that the base lacks, in the replacement's order. */
  lemma {:induction false} ReplaceItemsKeepsBaseOrder(dest: seq<Item>, src: seq<Item>)
    ensures Keys(dest) <= Keys(ReplaceItems(dest, src))
    ensures Keys(ReplaceItems(dest, src)) == Keys(dest) + NewKeys(Keys(dest), Keys(src))
    decreases |src|
  {
    if |src| > 0 {
      var k := src[0].key;
      var d' := Set(dest, k, ReplaceRecursive(EntryOf(dest, k), src[0].value));
      assert ReplaceItems(dest, src) == ReplaceItems(d', src[1..]);
      ReplaceItemsKeepsBaseOrder(d', src[1..]);
      HasKeyInKeys(dest, k);
      KeysCons(src);
      NewKeysStep(Keys(dest), Keys(d'), k, Keys(src[1..]));
    }
  }

  /** One level of the merge: a key the replacement carries takes the merged value of both
      entries; any other key keeps its base value. */
  lemma {:induction false} ReplaceItemsEntry(dest: seq<Item>, src: seq<Item>, k: string)
    requires UniqueKeys(src)
    ensures EntryOf(ReplaceItems(dest, src), k) ==
      if HasKey(src, k) then ReplaceRecursive(EntryOf(dest, k), EntryOf(src, k))
      else EntryOf(dest, k)
    decreases |src|
  {
    if |src| > 0 {
      var k0 := src[0].key;
      var d' := Set(dest, k0, ReplaceRecursive(EntryOf(dest, k0), src[0].value));
      ReplaceItemsEntry(d', src[1..], k);
      if k == k0 {
        assert IndexOf(src[1..], k).None?;
      } else {
        assert IndexOf(src, k) == (match IndexOf(src[1..], k) case None => None case Some(j) => Some(j + 1));
      }
    }
  }

  lemma WellFormedEntry(v: Value, k: string)
    requires WellFormed(v)
    ensures WellFormed(Entry(v, k))
  {
  }

  /** A value the replacement sets at a path is what the merge holds there, unless both the base
      and the replacement hold arrays at that path (then the two are merged key by key). */
  lemma {:induction false} ReplacementWins(base: Value, repl: Value, path: seq<string>)
    requires WellFormed(repl)
    requires Has(repl, path)
    requires !Lookup(base, path).Arr? || !Lookup(repl, path).Arr?
    ensures Lookup(ReplaceRecursive(base, repl), path) == Lookup(repl, path)
    decreases |path|
  {
    if |path| > 0 && base.Arr? {
      var k := path[0];
      ReplaceItemsEntry(base.items, repl.items, k);
      WellFormedEntry(repl, k);
      ReplacementWins(Entry(base, k), Entry(repl, k), path[1..]);
    }
  }

  /** The replacement leaves the path alone: some key on it is missing from the replacement,
      and every entry before that key is an array in the replacement. */
  predicate Untouched(repl: Value, path: seq<string>)
    decreases |path|
  {
    |path| > 0 && repl.Arr?
    && (!HasKey(repl.items, path[0]) || Untouched(Entry(repl, path[0]), path[1..]))
  }

  /** Where the replacement leaves a path of the base alone, the merge keeps the base value. */
  lemma {:induction false} BaseKeptWhereUntouched(base: Value, repl: Value, path: seq<string>)
    requires WellFormed(repl)
    requires Has(base, path)
    requires Untouched(repl, path)
    ensures Lookup(ReplaceRecursive(base, repl), path) == Lookup(base, path)
    decreases |path|
  {
    var k := path[0];
    ReplaceItemsEntry(base.items, repl.items, k);
    if HasKey(repl.items, k) {
      WellFormedEntry(repl, k);
      BaseKeptWhereUntouched(Entry(base, k), Entry(repl, k), path[1..]);
    }
  }

  /** PHP's conversion of a value to a string where it is concatenated. */
  function StringOf(v: Value): (r: string)
    ensures v.Str? ==> r == v.s
    ensures v.Null? || v == Bool(false) ==> r == ""
  {
    match v
    case Null => ""
    case Bool(b) => if b then "1" else ""
    case Int(i) => Decimal(i)
    case Str(s) => s
    case Arr(_) => "Array"
  }
}

=== FILE: purge.dfy ===
/** The `emptyBucket` entry point: connect, list, and delete everything in one batch. */
module Purge {
  import opened Outcomes
  import opened ChangeDetection

  /** The outcome of the batch delete: every object deleted, an `S3Exception`, or a
      `DeleteMultipleObjectsException` reporting objects that could not be deleted. */
  datatype DeleteOutcome = Deleted | DeleteRejected | PartlyDeleted

  /** What one call of `emptyBucket` did: how it ended, whether it listed the bucket, and how
      many batch deletes it issued. */
  datatype PurgeRun = PurgeRun(exit: Exit, listed: bool, batchDeletes: nat)

  /** `emptyBucket()`. `connected` is the outcome of `connect`, `listing` that of `listObjects`,
      and `delete` that of the batch delete. An empty listing is a successful no-op; an
      `S3Exception` from listing or deleting returns false; a partial delete is not caught, so
      its exception escapes. */
  function EmptyBucket(connected: bool, listing: Listing, delete: DeleteOutcome): (run: PurgeRun)
    ensures run.listed <==> connected
    ensures run.batchDeletes <= 1
    ensures run.batchDeletes == 1 <==> connected && listing.Listed? && |listing.contents| > 0
    ensures run.exit == Returned(true) <==>
      connected && listing.Listed? && (|listing.contents| == 0 || delete == Deleted)
    ensures run.exit == Threw <==> run.batchDeletes == 1 && delete == PartlyDeleted
  {
    if !connected then PurgeRun(Returned(false), false, 0)
    else match listing
      case ListFailed => PurgeRun(Returned(false), true, 0)
      case Listed(contents) =>
        if |contents| == 0 then PurgeRun(Returned(true), true, 0)
        else match delete
          case Deleted => PurgeRun(Returned(true), true, 1)
          case DeleteRejected => PurgeRun(Returned(false), true, 1)
          case PartlyDeleted => PurgeRun(Threw, true, 1)
  }

  /** Purging never reports success for a delete that left objects behind. */
  lemma PartialDeleteNeverSucceeds(connected: bool, listing: Listing)
    ensures EmptyBucket(connected, listing, PartlyDeleted).exit != Returned(true)
      || (connected && listing.Listed? && |listing.contents| == 0)
  {
  }
}

=== FILE: strings.dfy ===
/** The string primitives the provider applies to paths and URLs. */
module Strings {

  /** The result of `str_replace('\\', '/', s)`: every backslash becomes a forward slash. */
  function Normalise(s: string): (r: string)
    ensures |r| == |s|
    ensures forall i :: 0 <= i < |s| ==> r[i] == (if s[i] == '\\' then '/' else s[i])
  {
    if |s| == 0 then ""
    else Normalise(s[..|s| - 1]) + [if s[|s| - 1] == '\\' then '/' else s[|s| - 1]]
  }

  /** A normalised path holds no backslash, and normalising it again changes nothing. */
  lemma NormaliseIdempotent(s: string)
    ensures '\\' !in Normalise(s)
    ensures Normalise(Normalise(s)) == Normalise(s)
  {
    var r := Normalise(s);
    forall i | 0 <= i < |r|
      ensures r[i] != '\\'
    {
    }
  }

  /** A path that already uses forward slashes only is left untouched. */
  lemma NormaliseKeepsSlashPaths(s: string)
    requires '\\' !in s
    ensures Normalise(s) == s
  {
  }

  /** The result of `rtrim(s, '/')`: every trailing slash is removed, nothing else. */
  function TrimTrailingSlashes(s: string): (r: string)
    ensures r <= s
    ensures |r| == 0 || r[|r| - 1] != '/'
    ensures forall i :: |r| <= i < |s| ==> s[i] == '/'
  {
    if |s| > 0 && s[|s| - 1] == '/' then TrimTrailingSlashes(s[..|s| - 1]) else s
  }

  /** The three facts above pin `rtrim(s, '/')` down: any prefix of `s` that does not end in
      a slash and is followed only by slashes is the trimmed string. */
  lemma {:induction false} TrimTrailingSlashesUnique(s: string, t: string)
    requires t <= s
    requires |t| == 0 || t[|t| - 1] != '/'
    requires forall i :: |t| <= i < |s| ==> s[i] == '/'
    ensures TrimTrailingSlashes(s) == t
  {
    if |s| > |t| {
      assert s[|s| - 1] == '/';
      assert t <= s[..|s| - 1];
      TrimTrailingSlashesUnique(s[..|s| - 1], t);
    } else {
      assert s == t;
    }
  }

  /** `rtrim(s, '/') . '/'`: the string with its trailing slashes replaced by exactly one. */
  function WithOneSlash(s: string): (r: string)
    ensures |r| >= 1 && r[|r| - 1] == '/'
    ensures |r| == 1 || r[|r| - 2] != '/'
    ensures r[..|r| - 1] <= s
    ensures forall i :: |r| - 1 <= i < |s| ==> s[i] == '/'
  {
    TrimTrailingSlashes(s) + "/"
  }

  /** Terminating a string with one slash twice is the same as doing it once. */
  lemma WithOneSlashIdempotent(s: string)
    ensures WithOneSlash(WithOneSlash(s)) == WithOneSlash(s)
  {
    var t := TrimTrailingSlashes(s);
    TrimTrailingSlashesUnique(t + "/", t);
  }

  /** Extra trailing slashes on a base URL make no difference. */
  lemma {:induction false} WithOneSlashIgnoresExtraSlashes(s: string, extra: string)
    requires forall i :: 0 <= i < |extra| ==> extra[i] == '/'
    ensures WithOneSlash(s + extra) == WithOneSlash(s)
  {
    var t := TrimTrailingSlashes(s);
    TrimTrailingSlashesUnique(s + extra, t);
  }

  /** The decimal digit for `d`. */
  function DigitChar(d: nat): (c: char)
    requires d < 10
    ensures '0' <= c <= '9'
  {
    ('0' as int + d) as char
  }

  /** The number a string of decimal digits denotes, most significant digit first. */
  function ReadDigits(s: string): nat
    requires forall i :: 0 <= i < |s| ==> '0' <= s[i] <= '9'
  {
    if |s| == 0 then 0
    else ReadDigits(s[..|s| - 1]) * 10 + (s[|s| - 1] as int - '0' as int)
  }

  /** The decimal notation of a natural number, most significant digit first. */
  function Digits(n: nat): (r: string)
    ensures |r| >= 1
    ensures forall i :: 0 <= i < |r| ==> '0' <= r[i] <= '9'
    ensures n < 10 <==> |r| == 1
  {
    if n < 10 then [DigitChar(n)] else Digits(n / 10) + [DigitChar(n % 10)]
  }

  /** PHP's conversion of an integer to a string: optional minus sign, then the digits. */
  function Decimal(i: int): (r: string)
    ensures |r| >= 1
    ensures i < 0 <==> r[0] == '-'
  {
    if i < 0 then "-" + Digits(-i) else Digits(i)
  }

  /** Reading the decimal notation back gives the number. */
  lemma {:induction false} DigitsValue(n: nat)
    ensures ReadDigits(Digits(n)) == n
  {
    if n >= 10 {
      DigitsValue(n / 10);
      var r := Digits(n);
      assert r[..|r| - 1] == Digits(n / 10);
    }
  }

  /** The integer's string is its magnitude's digits, after a minus sign when it is negative. */
  lemma DecimalValue(i: int)
    ensures i >= 0 ==> ReadDigits(Decimal(i)) == i
    ensures i < 0 ==> Decimal(i)[1..] == Digits(-i) && ReadDigits(Decimal(i)[1..]) == -i
  {
    if i >= 0 {
      DigitsValue(i);
    } else {
      var d := Digits(-i);
      assert Decimal(i) == "-" + d;
      assert ("-" + d)[1..] == d;
      DigitsValue(-i);
    }
  }


  /** PHP's `empty()` on a string: true for the empty string and for `"0"`, which PHP also
      counts as false. */
  predicate EmptyInPhp(s: string) {
    s == "" || s == "0"
  }
}

=== FILE: upload.dfy ===
/** The `upload` entry point: connect, compare the local assets with the bucket, then put the
    planned assets one at a time, stopping at the first rejected put. */
module Upload {
  import opened Outcomes
  import opened PhpArrays
  import opened ChangeDetection
  import opened Config

  /** `$this->supplier['upload_folder']` as concatenated in front of each put key. */
  function UploadFolder(supplier: Value): string {
    StringOf(Entry(supplier, "upload_folder"))
  }

  /** The key an asset is stored under: the upload folder followed by its normalised path. */
  function PutKey(folder: string, a: LocalAsset): string {
    folder + LookupKey(a)
  }

  /** A put key splits back into the upload folder and the asset's lookup key, so the i-th key
      of a plan is the folder followed by the i-th asset's lookup key. */
  lemma PutKeysSplit(folder: string, plan: seq<LocalAsset>, i: nat)
    requires i < |plan|
    ensures |PutKeys(folder, plan)[i]| == |folder| + |LookupKey(plan[i])|
    ensures PutKeys(folder, plan)[i][..|folder|] == folder
    ensures PutKeys(folder, plan)[i][|folder|..] == LookupKey(plan[i])
  {
    var k := PutKeys(folder, plan)[i];
    assert k == folder + LookupKey(plan[i]);
  }

  /** Where the upload folder comes from: an upload folder string the user sets is used as it
      is, and without one the folder is empty, so that put keys and lookup keys coincide. */
  lemma UploadFolderFromConfiguration(user: Value, a: LocalAsset)
    requires user.Arr? && WellFormed(user)
    ensures (Has(user, ["providers", "aws", "s3", "upload_folder"])
             && Lookup(user, ["providers", "aws", "s3", "upload_folder"]).Str?) ==>
      UploadFolder(Init(user)) == Lookup(user, ["providers", "aws", "s3", "upload_folder"]).s
    ensures Untouched(user, ["providers", "aws", "s3", "upload_folder"]) ==>
      UploadFolder(Init(user)) == "" && PutKey(UploadFolder(Init(user)), a) == LookupKey(a)
  {
    var path := ["providers", "aws", "s3", "upload_folder"];
    assert Fields[10] == ("upload_folder", path);
    if Has(user, path) {
      InitTakesUserSetting(user, 10);
    }
    if Untouched(user, path) {
      DefaultUploadFolder(user);
      assert "" + LookupKey(a) == LookupKey(a);
    }
  }

  /** The put key of every planned asset, in plan order. */
  function PutKeys(folder: string, plan: seq<LocalAsset>): (keys: seq<string>)
    ensures |keys| == |plan|
  {
    seq(|plan|, i requires 0 <= i < |plan| => PutKey(folder, plan[i]))
  }

  /** The keys the store loop tried, and whether it got through all of them. */
  datatype PutRun = PutRun(succeeded: bool, attempted: seq<string>)

  /** The store loop: each key is put in turn; `accepted[i]` says whether the i-th put went
      through or raised an `S3Exception`. The loop stops at the first rejected put. */
  function PutEach(keys: seq<string>, accepted: seq<bool>): (run: PutRun)
    requires |accepted| >= |keys|
    ensures run.attempted <= keys
    ensures run.succeeded <==> forall i :: 0 <= i < |keys| ==> accepted[i]
    ensures run.succeeded ==> run.attempted == keys
    ensures !run.succeeded ==>
      && |run.attempted| > 0
      && !accepted[|run.attempted| - 1]
      && forall i :: 0 <= i < |run.attempted| - 1 ==> accepted[i]
  {
    if |keys| == 0 then PutRun(true, [])
    else if !accepted[0] then PutRun(false, [keys[0]])
    else
      var rest := PutEach(keys[1..], accepted[1..]);
      PutRun(rest.succeeded, [keys[0]] + rest.attempted)
  }

  /** What one call of `upload` did: how it ended, whether it listed the bucket, and the keys
      of the puts it attempted, in order. */
  datatype UploadRun = UploadRun(exit: Exit, listed: bool, attempted: seq<string>)

  /** `upload($assets)`. `connected` is the outcome of `connect`, `listing` that of the one
      `listObjects` call, and `accepted[i]` that of the i-th put. A failed connection returns
      false before anything else; a failed listing is not caught, so the exception escapes.
      Otherwise the planned assets are put in plan order until one is rejected: the call
      returns true exactly when every put went through, and an empty plan puts nothing. */
  function Upload(supplier: Value, connected: bool, listing: Listing, assets: seq<LocalAsset>, accepted: seq<bool>): (run: UploadRun)
    requires |accepted| >= |assets|
    ensures !connected ==> run == UploadRun(Returned(false), false, [])
    ensures connected && listing.ListFailed? ==> run == UploadRun(Threw, true, [])
    ensures connected && listing.Listed? ==>
      var keys := PutKeys(UploadFolder(supplier), FilesAlreadyOnBucket(assets, listing.contents));
      && run.listed
      && run.exit.Returned?
      && run.attempted <= keys
      && (run.exit.value <==> run.attempted == keys && forall i :: 0 <= i < |keys| ==> accepted[i])
      && (!run.exit.value ==>
            && |run.attempted| > 0
            && !accepted[|run.attempted| - 1]
            && forall i :: 0 <= i < |run.attempted| - 1 ==> accepted[i])
  {
    if !connected then UploadRun(Returned(false), false, [])
    else match listing
      case ListFailed => UploadRun(Threw, true, [])
      case Listed(contents) =>
        var plan := FilesAlreadyOnBucket(assets, contents);
        if |plan| > 0 then
          var run := PutEach(PutKeys(UploadFolder(supplier), plan), accepted);
          UploadRun(Returned(run.succeeded), true, run.attempted)
        else
          UploadRun(Returned(true), true, [])
  }

  /** Fail-fast: when the k-th planned put is the first one rejected, exactly the puts up to and
      including it were attempted, in plan order, and the call returns false. */
  lemma UploadFailFast(supplier: Value, contents: seq<RemoteObject>, assets: seq<LocalAsset>, accepted: seq<bool>, k: nat)
    requires |accepted| >= |assets|
    requires k < |FilesAlreadyOnBucket(assets, contents)|
    requires !accepted[k] && forall i :: 0 <= i < k ==> accepted[i]
    ensures
      var run := Upload(supplier, true, Listed(contents), assets, accepted);
      var keys := PutKeys(UploadFolder(supplier), FilesAlreadyOnBucket(assets, contents));
      run.exit == Returned(false) && run.attempted == keys[..k + 1]
  {
    var run := Upload(supplier, true, Listed(contents), assets, accepted);
    var keys := PutKeys(UploadFolder(supplier), FilesAlreadyOnBucket(assets, contents));
    assert |run.attempted| - 1 == k;
  }

  /** The bucket's objects after a complete upload: the earlier objects followed by one object
      per planned asset, stored under its put key with the asset's size. */
  function AfterUpload(contents: seq<RemoteObject>, folder: string, plan: seq<LocalAsset>, stamp: int): seq<RemoteObject> {
    contents + Stored(folder, plan, stamp)
  }

  /** No two assets share a lookup key. */
  ghost predicate DistinctLookupKeys(assets: seq<LocalAsset>) {
    forall i, j :: 0 <= i < j < |assets| ==> LookupKey(assets[i]) != LookupKey(assets[j])
  }

  /** The objects a complete upload adds to the listing, one per planned asset. */
  function Stored(folder: string, plan: seq<LocalAsset>, stamp: int): (objs: seq<RemoteObject>)
    ensures |objs| == |plan|
  {
    seq(|plan|, i requires 0 <= i < |plan| => RemoteObject(PutKey(folder, plan[i]), stamp, plan[i].size))
  }

  /** Without an upload folder, every planned asset is listed under its lookup key after the upload. */
  lemma PlannedKeyListed(plan: seq<LocalAsset>, stamp: int, j: nat)
    requires j < |plan|
    ensures LookupKey(plan[j]) in IndexListing(Stored("", plan, stamp))
  {
    assert "" + LookupKey(plan[j]) == LookupKey(plan[j]);
    assert Stored("", plan, stamp)[j].key == LookupKey(plan[j]);
  }

  /** Every stored object under an asset's key was put for that asset, when lookup keys are
      distinct and every planned asset is one of the assets. */
  lemma StoredForItself(assets: seq<LocalAsset>, plan: seq<LocalAsset>, stamp: int, i: nat, j: nat)
    requires DistinctLookupKeys(assets)
    requires forall p :: p in plan ==> p in assets
    requires i < |assets| && j < |plan|
    requires Stored("", plan, stamp)[j].key == LookupKey(assets[i])
    ensures plan[j] == assets[i]
  {
    assert plan[j] in assets;
    var m :| 0 <= m < |assets| && assets[m] == plan[j];
    assert LookupKey(assets[m]) == LookupKey(assets[i]);
  }

  /** Without an upload folder, an asset is up to date in the complete listing of the bucket
      after a complete upload, provided lookup keys are distinct: either it was planned and its
      object now has its size, or it was not planned and nothing overwrote the object that
      already matched it. The provider sees the complete listing only when it fits in one page. */
  lemma {:induction false} UpToDateAfterUpload(assets: seq<LocalAsset>, contents: seq<RemoteObject>, plan: seq<LocalAsset>, stamp: int, i: nat)
    requires DistinctLookupKeys(assets)
    requires i < |assets|
    requires forall p :: p in plan ==> p in assets
    requires NeedsUpload(IndexListing(contents), assets[i]) ==> assets[i] in plan
    ensures !NeedsUpload(IndexListing(contents + Stored("", plan, stamp)), assets[i])
  {
    var stored := Stored("", plan, stamp);
    IndexListingAppend(contents, stored);
    var a := assets[i];
    var k := LookupKey(a);
    if k in IndexListing(stored) {
      IndexListingFromListing(stored, k);
      var j :| 0 <= j < |stored| && stored[j] == IndexListing(stored)[k];
      StoredForItself(assets, plan, stamp, i, j);
    } else if NeedsUpload(IndexListing(contents), a) {
      var j :| 0 <= j < |plan| && plan[j] == a;
      PlannedKeyListed(plan, stamp, j);
    }
  }

  /** Without an upload folder, a second run after a complete upload finds nothing to upload,
      provided lookup keys are distinct and the bucket, with every asset added, still fits in one
      listing page, so that both runs see the whole bucket. */
  lemma ReuploadFindsNothing(assets: seq<LocalAsset>, bucket: seq<RemoteObject>, stamp: int)
    requires DistinctLookupKeys(assets)
    requires |bucket| + |assets| <= MaxKeys
    ensures
      var plan := FilesAlreadyOnBucket(assets, FirstPage(bucket));
      FilesAlreadyOnBucket(assets, FirstPage(AfterUpload(bucket, "", plan, stamp))) == []
  {
    var plan := FilesAlreadyOnBucket(assets, FirstPage(bucket));
    var after := AfterUpload(bucket, "", plan, stamp);
    assert FirstPage(bucket) == bucket;
    assert after == bucket + Stored("", plan, stamp);
    assert FirstPage(after) == after;
    forall i | 0 <= i < |assets|
      ensures !NeedsUpload(IndexListing(after), assets[i])
    {
      UpToDateAfterUpload(assets, bucket, plan, stamp, i);
    }
    NoneSelectedIsEmpty(assets, after);
  }

  /** Without pagination, an object past the first page is invisible: an asset whose object
      (same key, same size) is the first object after `MaxKeys` others is planned again, although
      the complete listing would skip it. */
  lemma TruncatedListingReplans(filler: seq<RemoteObject>, a: LocalAsset, stamp: int)
    requires |filler| == MaxKeys
    requires forall i :: 0 <= i < |filler| ==> filler[i].key != LookupKey(a)
    ensures
      var bucket := filler + [RemoteObject(LookupKey(a), stamp, a.size)];
      FilesAlreadyOnBucket([a], bucket) == [] && FilesAlreadyOnBucket([a], FirstPage(bucket)) == [a]
  {
    var bucket := filler + [RemoteObject(LookupKey(a), stamp, a.size)];
    assert FirstPage(bucket) == filler;
    assert bucket[|filler|].key == LookupKey(a);
    SameSizeIsSkipped([a], bucket, 0);
    if LookupKey(a) in IndexListing(filler) {
      IndexListingFromListing(filler, LookupKey(a));
    }
    AllSelectedKeepsAll([a], filler);
  }

  /** With a non-empty upload folder the lookup key misses the stored key: starting from an
      empty bucket, a second run plans every asset again, as long as no asset's put key is
      another asset's lookup key. */
  lemma UploadFolderDefeatsComparison(assets: seq<LocalAsset>, folder: string, stamp: int)
    requires forall i, j :: 0 <= i < |assets| && 0 <= j < |assets| ==> PutKey(folder, assets[i]) != LookupKey(assets[j])
    ensures FilesAlreadyOnBucket(assets, []) == assets
    ensures FilesAlreadyOnBucket(assets, AfterUpload([], folder, assets, stamp)) == assets
  {
    var after := AfterUpload([], folder, assets, stamp);
    forall i | 0 <= i < |assets|
      ensures NeedsUpload(IndexListing(after), assets[i])
    {
      var k := LookupKey(assets[i]);
      if k in IndexListing(after) {
        IndexListingFromListing(after, k);
      }
    }
    AllSelectedKeepsAll(assets, after);
  }

  /** An object of the asset's size already under its lookup key masks the asset for good: it
      is never planned, so with a non-empty upload folder no run ever stores it under its put
      key. */
  lemma FolderMaskedBySameSizeObject(a: LocalAsset, folder: string, t: int, stamp: int)
    ensures
      var bucket := [RemoteObject(LookupKey(a), t, a.size)];
      var plan := FilesAlreadyOnBucket([a], bucket);
      var after := AfterUpload(bucket, folder, plan, stamp);
      && plan == []
      && after == bucket
      && FilesAlreadyOnBucket([a], after) == []
      && (folder != "" ==> forall i :: 0 <= i < |after| ==> after[i].key != PutKey(folder, a))
  {
    var bucket := [RemoteObject(LookupKey(a), t, a.size)];
    var plan := FilesAlreadyOnBucket([a], bucket);
    assert bucket[0].key == LookupKey(a);
    SameSizeIsSkipped([a], bucket, 0);
    assert Stored(folder, plan, stamp) == [];
    assert |PutKey(folder, a)| == |folder| + |LookupKey(a)|;
  }

  /** A concrete case: with upload folder `cdn/`, an asset uploaded into an empty bucket is
      planned again on the next run. */
  lemma UploadFolderExample()
    ensures
      var a := LocalAsset("css/app.css", "/srv/public/css/app.css", 120);
      FilesAlreadyOnBucket([a], AfterUpload([], "cdn/", [a], 0)) == [a]
  {
    var a := LocalAsset("css/app.css", "/srv/public/css/app.css", 120);
    assert LookupKey(a) == "css/app.css";
    assert PutKey("cdn/", a) == "cdn/css/app.css";
    UploadFolderDefeatsComparison([a], "cdn/", 0);
  }
}

=== FILE: urls.dfy ===
/** URL construction for asset references: `getBucket`, `getCloudFront`, `getCloudFrontUrl`,
    `getUrl` and `urlGenerator`. */
module Urls {
  import opened Strings
  import opened PhpArrays
  import opened Config

  /** The two parts of a parsed base URL the provider uses. */
  datatype UrlParts = UrlParts(scheme: string, host: string)

  /** `getBucket()`: the first key of the `buckets` array with its trailing slashes removed;
      the empty string when there is no such key. */
  function GetBucket(supplier: Value): (bucket: string)
    ensures
      var buckets := Get(supplier, "buckets");
      if buckets.Arr? && |buckets.items| > 0 then
        var first := buckets.items[0].key;
        bucket <= first && forall i :: |bucket| <= i < |first| ==> first[i] == '/'
      else
        bucket == ""
    ensures bucket == "" || bucket[|bucket| - 1] != '/'
  {
    var buckets := Get(supplier, "buckets");
    if buckets.Arr? && |buckets.items| > 0 then TrimTrailingSlashes(buckets.items[0].key) else ""
  }

  /** `getCloudFront()`: CloudFront is used only when the setting is the boolean `true`; any
      other value, `"true"` or `1` included, counts as off. */
  function GetCloudFront(supplier: Value): (on: bool)
    ensures on <==> Get(supplier, "cloudfront") == Bool(true)
  {
    match Get(supplier, "cloudfront")
    case Bool(b) => b
    case _ => false
  }

  /** `getCloudFrontUrl()`: the CloudFront URL ending in exactly one slash. */
  function GetCloudFrontUrl(supplier: Value): (url: string)
    ensures |url| >= 1 && url[|url| - 1] == '/'
    ensures |url| == 1 || url[|url| - 2] != '/'
    ensures url[..|url| - 1] <= StringOf(Get(supplier, "cloudfront_url"))
    ensures forall i :: |url| - 1 <= i < |StringOf(Get(supplier, "cloudfront_url"))| ==>
      StringOf(Get(supplier, "cloudfront_url"))[i] == '/'
  {
    WithOneSlash(StringOf(Get(supplier, "cloudfront_url")))
  }

  /** `getUrl()`: the provider URL ending in exactly one slash. */
  function GetUrl(supplier: Value): (url: string)
    ensures |url| >= 1 && url[|url| - 1] == '/'
    ensures |url| == 1 || url[|url| - 2] != '/'
    ensures url[..|url| - 1] <= StringOf(Get(supplier, "provider_url"))
    ensures forall i :: |url| - 1 <= i < |StringOf(Get(supplier, "provider_url"))| ==>
      StringOf(Get(supplier, "provider_url"))[i] == '/'
  {
    WithOneSlash(StringOf(Get(supplier, "provider_url")))
  }

  /** `urlGenerator($path)`, with `parse` standing for the CDN helper's `parseUrl`. In CloudFront
      mode the URL is the CloudFront scheme and host followed by the path; otherwise it is the
      provider URL's scheme, then `bucket.` unless the bucket is empty in PHP's sense (`""` or
      `"0"`), then the host and the path. The bucket label is added even when the host already
      names the bucket. */
  function UrlGenerator(supplier: Value, parse: string -> UrlParts, path: string): (url: string)
    ensures Get(supplier, "cloudfront") == Bool(true) ==>
      var p := parse(GetCloudFrontUrl(supplier));
      url == p.scheme + "://" + p.host + "/" + path
    ensures Get(supplier, "cloudfront") != Bool(true) && EmptyInPhp(GetBucket(supplier)) ==>
      var p := parse(GetUrl(supplier));
      url == p.scheme + "://" + p.host + "/" + path
    ensures Get(supplier, "cloudfront") != Bool(true) && !EmptyInPhp(GetBucket(supplier)) ==>
      var p := parse(GetUrl(supplier));
      url == p.scheme + "://" + GetBucket(supplier) + "." + p.host + "/" + path
  {
    if GetCloudFront(supplier) then
      var p := parse(GetCloudFrontUrl(supplier));
      p.scheme + "://" + p.host + "/" + path
    else
      var p := parse(GetUrl(supplier));
      var bucket := GetBucket(supplier);
      if EmptyInPhp(bucket) then p.scheme + "://" + p.host + "/" + path
      else p.scheme + "://" + bucket + "." + p.host + "/" + path
  }

  /** The generated URL depends on the supplier only through the CloudFront switch, the two base
      URLs and the bucket. */
  lemma UrlGeneratorInputs(s1: Value, s2: Value, parse: string -> UrlParts, path: string)
    requires GetCloudFront(s1) == GetCloudFront(s2)
    requires GetCloudFrontUrl(s1) == GetCloudFrontUrl(s2)
    requires GetUrl(s1) == GetUrl(s2)
    requires GetBucket(s1) == GetBucket(s2)
    ensures UrlGenerator(s1, parse, path) == UrlGenerator(s2, parse, path)
  {
  }

  /** In CloudFront mode neither the bucket nor the provider URL matters. */
  lemma CloudFrontIgnoresBucket(s1: Value, s2: Value, parse: string -> UrlParts, path: string)
    requires GetCloudFront(s1) && GetCloudFront(s2)
    requires Get(s1, "cloudfront_url") == Get(s2, "cloudfront_url")
    ensures UrlGenerator(s1, parse, path) == UrlGenerator(s2, parse, path)
  {
  }

  /** Ending a base URL in one slash is idempotent: applying it to its own result changes
      nothing. */
  lemma BaseUrlsIdempotent(supplier: Value)
    ensures WithOneSlash(GetUrl(supplier)) == GetUrl(supplier)
    ensures WithOneSlash(GetCloudFrontUrl(supplier)) == GetCloudFrontUrl(supplier)
  {
    WithOneSlashIdempotent(StringOf(Get(supplier, "provider_url")));
    WithOneSlashIdempotent(StringOf(Get(supplier, "cloudfront_url")));
  }

  /** Trailing slashes on the configured provider URL do not change the generated URLs. */
  lemma ProviderUrlTrailingSlashes(s1: Value, s2: Value, base: string, extra: string, parse: string -> UrlParts, path: string)
    requires forall i :: 0 <= i < |extra| ==> extra[i] == '/'
    requires Get(s1, "provider_url") == Str(base) && Get(s2, "provider_url") == Str(base + extra)
    requires Get(s1, "cloudfront") == Get(s2, "cloudfront")
    requires Get(s1, "cloudfront_url") == Get(s2, "cloudfront_url")
    requires Get(s1, "buckets") == Get(s2, "buckets")
    ensures UrlGenerator(s1, parse, path) == UrlGenerator(s2, parse, path)
  {
    GetUrlIgnoresExtraSlashes(s1, s2, base, extra);
    SameBucketSetting(s1, s2);
    SameCloudFrontSetting(s1, s2);
    SameCloudFrontUrlSetting(s1, s2);
    UrlGeneratorInputs(s1, s2, parse, path);
  }

  lemma SameBucketSetting(s1: Value, s2: Value)
    requires Get(s1, "buckets") == Get(s2, "buckets")
    ensures GetBucket(s1) == GetBucket(s2)
  {
  }

  lemma SameCloudFrontSetting(s1: Value, s2: Value)
    requires Get(s1, "cloudfront") == Get(s2, "cloudfront")
    ensures GetCloudFront(s1) == GetCloudFront(s2)
  {
  }

  lemma SameCloudFrontUrlSetting(s1: Value, s2: Value)
    requires Get(s1, "cloudfront_url") == Get(s2, "cloudfront_url")
    ensures GetCloudFrontUrl(s1) == GetCloudFrontUrl(s2)
  {
  }

  lemma GetUrlIgnoresExtraSlashes(s1: Value, s2: Value, base: string, extra: string)
    requires forall i :: 0 <= i < |extra| ==> extra[i] == '/'
    requires Get(s1, "provider_url") == Str(base) && Get(s2, "provider_url") == Str(base + extra)
    ensures GetUrl(s1) == GetUrl(s2)
  {
    WithOneSlashIgnoresExtraSlashes(base, extra);
  }

  /** The bucket label is not de-duplicated: when the provider URL's host already starts with
      `bucket.`, the generated URL names the bucket twice (for instance
      `http://mybucket.mybucket.s3.amazonaws.com/css/app.css`). */
  lemma BucketLabelNotDeduplicated(supplier: Value, parse: string -> UrlParts, scheme: string, rest: string, path: string)
    requires !GetCloudFront(supplier)
    requires !EmptyInPhp(GetBucket(supplier))
    requires parse(GetUrl(supplier)) == UrlParts(scheme, GetBucket(supplier) + "." + rest)
    ensures
      var b := GetBucket(supplier);
      UrlGenerator(supplier, parse, path) == scheme + "://" + b + "." + b + "." + rest + "/" + path
  {
    var b := GetBucket(supplier);
    var front := scheme + "://" + b + ".";
    assert UrlGenerator(supplier, parse, path) == front + (b + "." + rest) + "/" + path;
    ConcatAssoc(front, b + ".", rest);
    ConcatAssoc(front, b, ".");
  }

  lemma ConcatAssoc(x: string, y: string, z: string)
    ensures x + (y + z) == x + y + z
  {
  }

  /** A configuration that leaves `cloudfront.use` out generates direct bucket URLs. */
  lemma DefaultIsDirectMode(user: Value, parse: string -> UrlParts, path: string)
    requires user.Arr? && WellFormed(user)
    requires Untouched(user, ["providers", "aws", "s3", "cloudfront", "use"])
    ensures !GetCloudFront(Init(user))
    ensures
      var s := Init(user);
      var p := parse(GetUrl(s));
      UrlGenerator(s, parse, path) ==
        if EmptyInPhp(GetBucket(s)) then p.scheme + "://" + p.host + "/" + path
        else p.scheme + "://" + GetBucket(s) + "." + p.host + "/" + path
  {
    DefaultCloudFrontOff(user);
  }

  /** A bucket named `0` (or `0/`) gets no host label: PHP's `empty()` counts `"0"` as empty,
      so the URL is the one an unconfigured bucket would give. */
  lemma BucketZeroGetsNoLabel(s1: Value, s2: Value, parse: string -> UrlParts, path: string)
    requires !GetCloudFront(s1) && !GetCloudFront(s2)
    requires GetBucket(s1) == "0" && GetBucket(s2) == ""
    requires Get(s1, "provider_url") == Get(s2, "provider_url")
    ensures UrlGenerator(s1, parse, path) == UrlGenerator(s2, parse, path)
  {
  }
}
